=== FILE: README.md ===
# pars configuration encoding — a Dafny model

The repository is a black-box test harness for `pars`, a line-oriented
parallel command dispatcher. Apart from spawning the dispatcher and piping
text to it, the harness holds one piece of self-contained logic: the
configuration layer in `test.rs`, which describes how the dispatcher is
launched. This project models that layer:

- `TerminationType` (`never` / `lazy` / `eager`): its parser `from_str` and
  its `Debug` printer, whose output is the value of `--halt`
  (`termination.dfy`, module `Termination`).
- `RemoteHost`, a `host:port/threads` worker declaration: `new`, the parser
  `from_str` (split on `:` and `/`, parse a `u16` port and a `u32` thread
  count) and `to_string` (`remote_host.dfy`, module `RemoteHosts`).
- `Distribution::num_threads` over `Local(n)` / `Remote(hosts)`
  (`distribution.dfy`, module `Distributions`).
- The argument vector `ParsProgram::new_local` builds before spawning:
  `6991 cargo run --`, then `-J n` or one `--remote addr:port/threads` pair per
  host, then `--halt name` if a policy is given (`pars_program.dfy`, module
  `ParsProgram`).
- Rust's decimal formatting of unsigned integers and its `u16`/`u32`
  `from_str`, which the layer relies on (`decimal.dfy`, module `Decimal`),
  and the `Option`/`Result`/panic outcome datatypes (`results.dfy`).

Quirks of the code are modelled as written:

- `RemoteHost::from_str` stores the whole input text as the address, not the
  host-name piece, so printing a host whose name holds no `:` or `/` and
  parsing it back keeps the port and thread count but not the name (a name
  holding a separator shifts the pieces, and the round trip fails outright).
- `from_str` panics through `expect` only when the port piece is missing, or
  when the port parses but the thread-count piece is missing. With two pieces
  and an unparsable port it returns the parse error, because the port is
  parsed before the third piece is fetched. The "Missing hostname" `expect`
  can never fire, since splitting always yields at least one piece.
- `num_threads` of a remote distribution counts the hosts (`remote.len() as
  u32`, truncated to 32 bits) rather than summing the threads they declare,
  although its doc comment (test.rs:53) calls it the total number of threads
  that work is distributed across. The model follows the code and relates
  the two in `Distributions.HostCountVersusDeclared`.

Rust's integer parser is modelled closely: an empty string is `Empty`; a
lone `+` or `-` is `InvalidDigit`; one leading `+` is skipped; `-` is never
accepted by an unsigned type; the digits are read left to right, and the
first non-digit gives `InvalidDigit` and the first prefix that no longer fits
gives `PosOverflow`. `Decimal.ParseUnsigned` is proved equivalent to the
declarative description "optional `+`, one or more digits, value in range".

## Model

| member | source | states |
|---|---|---|
| Decimal.Format | test.rs:98 | `format!("{num}")` yields a non-empty digit string with no leading zero (first digit `0` only for zero, and zero prints as exactly `0`) whose decimal value is the number |
| Decimal.ParseUnsigned | test.rs:183-185 | the `u16`/`u32` `parse` succeeds exactly on an optional `+` followed by one or more digits whose value is below the type's limit, and then yields that value; `Empty` exactly for the empty string; `PosOverflow` for an all-digit string out of range |
| Decimal.ScanDigitsCorrect | test.rs:183-185 | the left-to-right digit loop of the integer parser, resumed after an accepted prefix, succeeds exactly when the whole string is digits in range, yields their value, and reports overflow for any all-digit string out of range |
| Decimal.FormatThenParse | test.rs:98 | parsing the decimal text of any in-range number gives the number back |
| Termination.FromStr | test.rs:67-79 | `from_str` accepts exactly `never`, `lazy` and `eager`, mapping each to `Never`, `Lazy` and `Eager` respectively (both directions); every other string is an error |
| Termination.Name | test.rs:80-88 | the `Debug` text of every policy parses back to that same policy; with the name-by-name mapping of `FromStr` this fixes `Never`, `Lazy`, `Eager` to print `never`, `lazy`, `eager` |
| Termination.NameInjective | test.rs:80-88 | distinct policies have distinct `Debug` texts |
| Termination.FromStrInvertsName | test.rs:70-87 | every accepted string is the `Debug` text of the policy it parses to, so the accepted strings are exactly the three names |
| RemoteHosts.New | test.rs:165-170 | `new` is a plain record constructor placing the host name as the address, with the port and thread count beside it; it carries no contract of its own, and its field placement is fixed at concrete inputs by `RemoteHosts.SeparatorInHostBreaksRoundTrip`, `Distributions.HostsAreCountedNotSummed` and `ParsProgram.RemoteExample` |
| RemoteHosts.ToString | test.rs:197-201 | `to_string` prints `addr:port/threads`, with the port and thread count in canonical decimal; stated for every host by `RemoteHosts.ToStringLayout` |
| RemoteHosts.ToStringLayout | test.rs:197-201 | for every host the text is the address, `:` at index `|addr|`, the decimal port, `/` right after it, then the decimal thread count, of total length `|addr| + |port text| + |threads text| + 2` |
| RemoteHosts.Split | test.rs:176 | splitting on `:` or `/` yields one more piece than there are separators |
| RemoteHosts.SplitPiecesHaveNoSeparator | test.rs:176 | no piece of a split contains `:` or `/` |
| RemoteHosts.SplitWhole | test.rs:176 | a string without separators is a single piece |
| RemoteHosts.SplitAtFirst | test.rs:176 | the text before the first separator is the first piece and the rest is split on its own |
| RemoteHosts.FromStr | test.rs:172-196 | panics exactly when there is one piece, or two pieces with a valid port; succeeds exactly when there are at least three pieces, the second a valid `u16` and the third a valid `u32`; on success the address is the entire input and port and threads are the parsed values; otherwise it returns the port's own parse error (`Empty`, `InvalidDigit`, `PosOverflow`) when the port is invalid, and the thread count's parse error only when the port is valid |
| RemoteHosts.TrailingPiecesIgnored | test.rs:176-185 | two declarations with at least three pieces whose second and third pieces agree both return, both succeed or both fail, and agree on port and thread count, and when they fail they fail with the same error: pieces after the third are never read |
| RemoteHosts.EmptyPortIsReported | test.rs:176-185 | `h::1` returns the port's `Empty` error, although a thread-count piece follows: the port is parsed before the thread count |
| RemoteHosts.ParsedAddrIsWholeText | test.rs:188-194 | a parsed host's address contains at least two separators and so is never the host-name piece |
| RemoteHosts.ToStringSplits | test.rs:197-201 | `to_string` of a host whose address has no `:` or `/` splits into exactly the address, the decimal port and the decimal thread count |
| RemoteHosts.ToStringThenFromStr | test.rs:165-200 | for such a host, parsing its `to_string` text succeeds with the same port and thread count and with the whole text as address |
| RemoteHosts.NewDoesNotRoundTrip | test.rs:165-200 | for every host name, port and thread count, a host built with `new` is never recovered by parsing its own `to_string` text |
| RemoteHosts.SeparatorInHostBreaksRoundTrip | test.rs:175-200 | the host name `a:b` with port 1234 and one thread prints to a text whose parse reads `b` as the port and returns `InvalidDigit` |
| Distributions.NumThreads | test.rs:52-59 | a local distribution reports its thread count; a remote one reports its host count modulo 2^32, which is the host count when there are fewer than 2^32 hosts |
| Distributions.HostCountVersusDeclared | test.rs:46-59 | when every host declares at least one thread, the reported count is at most the declared total and equals it exactly when every host declares one thread |
| Distributions.HostsAreCountedNotSummed | test.rs:54-57 | one remote host declaring four threads is reported as one thread |
| ParsProgram.RemoteArgs | test.rs:99-108 | the remote flags have two arguments per host |
| ParsProgram.RemoteArgsAt | test.rs:101-105 | the arguments for the `k`-th host, in host order, are `--remote` followed by that host's `addr:port/threads` text |
| ParsProgram.DistributionArgs | test.rs:97-109 | a local distribution becomes `-J` followed by the canonical decimal text of the thread count, which parses back to it; a remote one becomes exactly the `--remote` flags of its hosts |
| ParsProgram.HaltArgs | test.rs:112-114 | no policy adds nothing; a policy adds `--halt` and a text that parses back to the policy |
| ParsProgram.NewLocal | test.rs:94-114 | the program is `6991`; its arguments are `cargo run --`, then the distribution arguments, then the halt arguments, in that order |
| ParsProgram.HaltFlagIffPolicy | test.rs:97-114 | `--halt` occurs among the arguments exactly when a policy is given |
| ParsProgram.NoHaltFlagInDistributionArgs | test.rs:97-109 | no distribution argument is the `--halt` flag |
| ParsProgram.HostArgIsNotAFlag | test.rs:103 | no host text can be the `--halt` flag |
| ParsProgram.RemoteArgsParseBack | test.rs:99-105 | each `--remote` value parses back through `RemoteHost::from_str` to its host's port and thread count when the host name has no `:` or `/` |
| ParsProgram.LocalLazyExample | test.rs:416-418 | two local threads with the lazy policy launch `6991 cargo run -- -J 2 --halt lazy` |
| ParsProgram.RemoteExample | test.rs:491-498 | one remote `localhost` host on port 1234 with one thread launches `6991 cargo run -- --remote localhost:1234/1` |

## Left out

- Spawning the process, piping standard input and output, waiting and killing (`ParsProgram::new_local` lines 116-123, `run_cmds`, `get_stdout`, `kill`): operating-system I/O. The model stops at the `Command` value; the first of the two `spawn` calls at line 120 starts a second, unused process, which the model does not represent.
- The `#[test]` modules from line 203 on: they check the timed output of the external `pars` binary, which is not part of this model; only their configurations appear, as the two example lemmas.
- The dispatcher itself (scheduling, halt semantics, output ordering): it is not in this repository.
- `pars_libs::Remote` is a foreign type; it is modelled as the record `Remote(addr, port)`.
- The derived `Debug` and `PartialEq` of `Distribution` and `RemoteHost`: Dafny's datatype equality stands in for `PartialEq`, and the derived `Debug` text is never used to build arguments.
- Rust strings are UTF-8 bytes; the model works on `char` sequences. The integer parser rejects any non-ASCII-digit character either way, and `:` and `/` are single bytes, so splitting and parsing agree.
- Decimal.ParseUnsigned: reports, for a string containing a non-digit, only that it fails; which of `InvalidDigit` or `PosOverflow` it reports there is defined by `Decimal.ScanDigits` but not stated in a contract.

=== FILE: decimal.dfy ===
/** Decimal text of the unsigned machine integers the configuration uses:
    Rust's `{}` formatting and its `u16`/`u32` `from_str`. */
module Decimal {
  import opened Results

  const U16_LIMIT: nat := 0x1_0000
  const U32_LIMIT: nat := 0x1_0000_0000

  /** Values of Rust's `u16`. */
  type U16 = n: nat | n < U16_LIMIT

  /** Values of Rust's `u32`. */
  type U32 = n: nat | n < U32_LIMIT

  /** The kinds of `ParseIntError` an unsigned parse can report. */
  datatype ParseIntError = Empty | InvalidDigit | PosOverflow

  predicate IsDigit(c: char) {
    '0' <= c <= '9'
  }

  function DigitValue(c: char): nat
    requires IsDigit(c)
  {
    c as int - '0' as int
  }

  function DigitChar(d: nat): (c: char)
    requires d < 10
    ensures IsDigit(c) && DigitValue(c) == d
  {
    ('0' as int + d) as char
  }

  predicate AllDigits(s: string) {
    forall i | 0 <= i < |s| :: IsDigit(s[i])
  }

  /** The number a string of decimal digits denotes, most significant digit first. */
  function Value(s: string): nat
    requires AllDigits(s)
  {
    if s == [] then 0 else Value(s[..|s| - 1]) * 10 + DigitValue(s[|s| - 1])
  }

  /** Rust's `{}` rendering of an unsigned integer: the shortest decimal
      numeral, so no leading zero except for zero itself. */
  function Format(n: nat): (r: string)
    ensures |r| >= 1 && AllDigits(r)
    ensures r[0] == '0' <==> n == 0
    ensures n == 0 ==> r == "0"
    ensures Value(r) == n
    decreases n
  {
    if n < 10 then [DigitChar(n)]
    else
      var prefix := Format(n / 10);
      var r := prefix + [DigitChar(n % 10)];
      assert r[..|r| - 1] == prefix;
      r
  }

  /** The text an unsigned `from_str` reads as digits: one leading `+` is skipped. */
  function UnsignedDigits(s: string): string {
    if |s| > 0 && s[0] == '+' then s[1..] else s
  }

  /** The strings an unsigned integer type with values below `limit` accepts:
      an optional `+`, then one or more decimal digits denoting a value in range. */
  predicate IsUnsignedLiteral(s: string, limit: nat) {
    var d := UnsignedDigits(s);
    |d| > 0 && AllDigits(d) && Value(d) < limit
  }

  /** The digit loop of `from_str_radix`: digits are consumed left to right,
      a non-digit stops with `InvalidDigit`, and an accumulated value that no
      longer fits stops with `PosOverflow`. */
  function ScanDigits(d: string, i: nat, acc: nat, limit: nat): (r: Result<nat, ParseIntError>)
    requires i <= |d|
    decreases |d| - i
  {
    if i == |d| then Ok(acc)
    else if !IsDigit(d[i]) then Err(InvalidDigit)
    else if acc * 10 + DigitValue(d[i]) >= limit then Err(PosOverflow)
    else ScanDigits(d, i + 1, acc * 10 + DigitValue(d[i]), limit)
  }

  /** A prefix of a digit string never denotes more than the whole string. */
  lemma {:induction false} PrefixValueAtMost(d: string, i: nat)
    requires AllDigits(d) && i <= |d|
    ensures Value(d[..i]) <= Value(d)
    decreases |d| - i
  {
    if i == |d| {
      assert d[..i] == d;
    } else {
      PrefixValueAtMost(d, i + 1);
      assert d[..i + 1][..i] == d[..i];
    }
  }

  /** The digit loop, started on a prefix it has already accepted, succeeds
      exactly on in-range digit strings and then yields their value; an
      out-of-range digit string always ends in `PosOverflow`. */
  lemma {:induction false} ScanDigitsCorrect(d: string, i: nat, acc: nat, limit: nat)
    requires i <= |d| && AllDigits(d[..i]) && acc == Value(d[..i]) && acc < limit
    ensures ScanDigits(d, i, acc, limit).Ok? <==> AllDigits(d) && Value(d) < limit
    ensures ScanDigits(d, i, acc, limit).Ok? ==> ScanDigits(d, i, acc, limit).value == Value(d)
    ensures AllDigits(d) && Value(d) >= limit ==> ScanDigits(d, i, acc, limit) == Err(PosOverflow)
    ensures ScanDigits(d, i, acc, limit) != Err(Empty)
    decreases |d| - i
  {
    if i == |d| {
      assert d[..i] == d;
    } else if IsDigit(d[i]) {
      var next := acc * 10 + DigitValue(d[i]);
      assert d[..i + 1][..i] == d[..i];
      assert AllDigits(d[..i + 1]);
      assert Value(d[..i + 1]) == next;
      if next >= limit {
        if AllDigits(d) {
          PrefixValueAtMost(d, i + 1);
        }
      } else {
        ScanDigitsCorrect(d, i + 1, next, limit);
      }
    }
  }

  /** Rust's `from_str` for an unsigned integer type whose values lie below
      `limit` (`u16`: 2^16, `u32`: 2^32). */
  function ParseUnsigned(s: string, limit: nat): (r: Result<nat, ParseIntError>)
    requires limit > 0
    ensures r.Ok? <==> IsUnsignedLiteral(s, limit)
    ensures r.Ok? ==> r.value == Value(UnsignedDigits(s)) && r.value < limit
    ensures r == Err(Empty) <==> s == []
    ensures var d := UnsignedDigits(s); |d| > 0 && AllDigits(d) && Value(d) >= limit ==> r == Err(PosOverflow)
  {
    if |s| == 0 then Err(Empty)
    else if (s[0] == '+' || s[0] == '-') && |s| == 1 then Err(InvalidDigit)
    else
      var d := if s[0] == '+' then s[1..] else s;
      assert d[..0] == [];
      ScanDigitsCorrect(d, 0, 0, limit);
      ScanDigits(d, 0, 0, limit)
  }

  /** Formatting then parsing gives back every in-range number. */
  lemma FormatThenParse(n: nat, limit: nat)
    requires n < limit
    ensures ParseUnsigned(Format(n), limit) == Ok(n)
  {
    assert UnsignedDigits(Format(n)) == Format(n);
  }

  /** The port the configurations use prints as expected. */
  lemma FormatSample()
    ensures Format(1234) == "1234"
  {
    assert Format(1) == "1";
    assert Format(12) == "12";
    assert Format(123) == "123";
  }
}

=== FILE: distribution.dfy ===
/** How work is spread: a number of local threads, or a list of remote hosts. */
module Distributions {
  import opened Decimal
  import RemoteHosts

  datatype Distribution = Local(threads: U32) | Remote(hosts: seq<RemoteHosts.RemoteHost>)

  /** `Distribution::num_threads`. A local distribution reports its thread
      count; a remote one reports how many hosts it lists (truncated to
      `u32`), not how many threads those hosts declare. */
  function NumThreads(d: Distribution): (n: U32)
    ensures d.Local? ==> n == d.threads
    ensures d.Remote? ==> n == |d.hosts| % U32_LIMIT
    ensures d.Remote? && |d.hosts| < U32_LIMIT ==> n == |d.hosts|
  {
    match d
    case Local(n) => n
    case Remote(hosts) => |hosts| % U32_LIMIT
  }

  /** The threads the hosts declare, summed. */
  function DeclaredThreads(hosts: seq<RemoteHosts.RemoteHost>): nat {
    if hosts == [] then 0 else hosts[0].threads + DeclaredThreads(hosts[1..])
  }

  /** When every host declares at least one thread, the reported count is
      at most the declared total, and equals it exactly when every host
      declares a single thread. */
  lemma {:induction false} HostCountVersusDeclared(hosts: seq<RemoteHosts.RemoteHost>)
    requires |hosts| < U32_LIMIT
    requires forall k | 0 <= k < |hosts| :: hosts[k].threads >= 1
    ensures NumThreads(Remote(hosts)) <= DeclaredThreads(hosts)
    ensures NumThreads(Remote(hosts)) == DeclaredThreads(hosts) <==>
      forall k | 0 <= k < |hosts| :: hosts[k].threads == 1
  {
    CountAtMostSum(hosts);
  }

  lemma {:induction false} CountAtMostSum(hosts: seq<RemoteHosts.RemoteHost>)
    requires forall k | 0 <= k < |hosts| :: hosts[k].threads >= 1
    ensures |hosts| <= DeclaredThreads(hosts)
    ensures |hosts| == DeclaredThreads(hosts) <==> forall k | 0 <= k < |hosts| :: hosts[k].threads == 1
  {
    if hosts != [] {
      var rest := hosts[1..];
      assert forall k | 0 <= k < |rest| :: rest[k] == hosts[k + 1];
      CountAtMostSum(rest);
      if forall k | 0 <= k < |rest| :: rest[k].threads == 1 {
        if hosts[0].threads == 1 {
          forall k | 0 <= k < |hosts|
            ensures hosts[k].threads == 1
          {
            if k > 0 { assert hosts[k] == rest[k - 1]; }
          }
        }
      }
    }
  }

  /** A single host declaring four threads counts as one. */
  lemma HostsAreCountedNotSummed()
    ensures NumThreads(Remote([RemoteHosts.New("localhost", 1234, 4)])) == 1
    ensures DeclaredThreads([RemoteHosts.New("localhost", 1234, 4)]) == 4
  {
  }
}

=== FILE: pars_program.dfy ===
/** The command line the harness launches the dispatcher with: the pure
    part of `ParsProgram::new_local`, which turns a distribution and an
    optional halt policy into a program name and an argument vector. */
module ParsProgram {
  import opened Results
  import opened Decimal
  import Termination
  import RemoteHosts
  import opened Distributions

  /** The program the harness runs. */
  const CARGO_CMD: string := "6991"

  /** The arguments that make `cargo` build and run the dispatcher. */
  const CARGO_ARGS: seq<string> := ["cargo", "run", "--"]

  /** A process to spawn: program name and arguments. */
  datatype Command = Command(program: string, args: seq<string>)

  /** The `--remote` flags: two arguments per host, in list order. */
  function RemoteArgs(hosts: seq<RemoteHosts.RemoteHost>): (args: seq<string>)
    ensures |args| == 2 * |hosts|
  {
    if hosts == [] then [] else ["--remote", RemoteHosts.ToString(hosts[0])] + RemoteArgs(hosts[1..])
  }

  /** The arguments for the `k`-th host are `--remote` followed by that
      host's `addr:port/threads` text. */
  lemma {:induction false} RemoteArgsAt(hosts: seq<RemoteHosts.RemoteHost>, k: nat)
    requires k < |hosts|
    ensures RemoteArgs(hosts)[2 * k] == "--remote"
    ensures RemoteArgs(hosts)[2 * k + 1] == RemoteHosts.ToString(hosts[k])
  {
    var rest := RemoteArgs(hosts[1..]);
    assert RemoteArgs(hosts) == ["--remote", RemoteHosts.ToString(hosts[0])] + rest;
    if k > 0 {
      RemoteArgsAt(hosts[1..], k - 1);
      assert RemoteArgs(hosts)[2 * k] == rest[2 * (k - 1)];
      assert RemoteArgs(hosts)[2 * k + 1] == rest[2 * (k - 1) + 1];
      assert hosts[1..][k - 1] == hosts[k];
    }
  }

  /** The distribution flags: `-J` and the thread count in decimal for a
      local distribution, the `--remote` flags for a remote one. */
  function DistributionArgs(d: Distribution): (args: seq<string>)
    ensures d.Local? ==> args == ["-J", Format(d.threads)]
    ensures d.Local? ==> ParseUnsigned(args[1], U32_LIMIT) == Ok(d.threads)
    ensures d.Remote? ==> args == RemoteArgs(d.hosts)
  {
    match d
    case Local(n) =>
      FormatThenParse(n, U32_LIMIT);
      ["-J", Format(n)]
    case Remote(hosts) => RemoteArgs(hosts)
  }

  /** The halt flags: nothing without a policy, otherwise `--halt` followed
      by a text that parses back to the policy. */
  function HaltArgs(term: Option<Termination.TerminationType>): (args: seq<string>)
    ensures term.None? <==> args == []
    ensures term.Some? ==>
      |args| == 2 && args[0] == "--halt" && Termination.FromStr(args[1]) == Ok(term.value)
  {
    match term
    case None => []
    case Some(t) => ["--halt", Termination.Name(t)]
  }

  /** `ParsProgram::new_local` up to the spawn: the cargo prefix, then the
      distribution flags, then the halt flags. */
  function NewLocal(d: Distribution, term: Option<Termination.TerminationType>): (c: Command)
    ensures c.program == CARGO_CMD
    ensures |c.args| == |CARGO_ARGS| + |DistributionArgs(d)| + |HaltArgs(term)|
    ensures c.args[..3] == CARGO_ARGS
    ensures c.args[3..|c.args| - |HaltArgs(term)|] == DistributionArgs(d)
    ensures c.args[|c.args| - |HaltArgs(term)|..] == HaltArgs(term)
  {
    var args := CARGO_ARGS + DistributionArgs(d) + HaltArgs(term);
    assert args[..3] == CARGO_ARGS;
    assert args[3..|args| - |HaltArgs(term)|] == DistributionArgs(d);
    Command(CARGO_CMD, args)
  }

  /** A `--halt` flag is present exactly when a policy is given: no
      distribution argument can be mistaken for it. */
  lemma HaltFlagIffPolicy(d: Distribution, term: Option<Termination.TerminationType>)
    ensures "--halt" in NewLocal(d, term).args <==> term.Some?
  {
    var dist := DistributionArgs(d);
    var halt := HaltArgs(term);
    assert NewLocal(d, term).args == (CARGO_ARGS + dist) + halt;
    NoHaltFlagInDistributionArgs(d);
    assert "--halt" !in CARGO_ARGS + dist;
    if term.Some? {
      assert halt[0] == "--halt";
    }
  }

  /** None of the distribution arguments is the `--halt` flag. */
  lemma NoHaltFlagInDistributionArgs(d: Distribution)
    ensures "--halt" !in DistributionArgs(d)
  {
    var dist := DistributionArgs(d);
    match d
    case Local(n) =>
      assert dist[1][0] != '-';
    case Remote(hosts) =>
      forall k | 0 <= k < |dist|
        ensures dist[k] != "--halt"
      {
        RemoteArgsAt(hosts, k / 2);
        if k % 2 == 1 {
          HostArgIsNotAFlag(hosts[k / 2]);
        }
      }
  }

  /** A host's `addr:port/threads` text is never the `--halt` flag: its
      first `:` comes right after the address, where `--halt` has none. */
  lemma HostArgIsNotAFlag(h: RemoteHosts.RemoteHost)
    ensures RemoteHosts.ToString(h) != "--halt"
  {
    assert RemoteHosts.ToString(h)[|h.remote.addr|] == ':';
  }

  /** Every `--remote` value parses back, through `RemoteHost::from_str`,
      to the port and thread count of the host it was printed from, as long
      as the host name holds no `:` or `/`. */
  lemma RemoteArgsParseBack(hosts: seq<RemoteHosts.RemoteHost>, k: nat)
    requires k < |hosts| && RemoteHosts.NoSeparator(hosts[k].remote.addr)
    ensures RemoteArgs(hosts)[2 * k] == "--remote"
    ensures var r := RemoteHosts.FromStr(RemoteArgs(hosts)[2 * k + 1]);
      r.Returned? && r.value.Ok? &&
      r.value.value.remote.port == hosts[k].remote.port &&
      r.value.value.threads == hosts[k].threads
  {
    RemoteArgsAt(hosts, k);
    RemoteHosts.ToStringThenFromStr(hosts[k]);
  }

  /** The single-machine configuration with the lazy policy launches
      `6991 cargo run -- -J 2 --halt lazy`. */
  lemma LocalLazyExample()
    ensures NewLocal(Local(2), Some(Termination.Lazy))
      == Command("6991", ["cargo", "run", "--", "-J", "2", "--halt", "lazy"])
  {
    assert Format(2) == "2";
  }

  /** One remote host on port 1234 with one thread and no policy launches
      `6991 cargo run -- --remote localhost:1234/1`. */
  lemma RemoteExample()
    ensures NewLocal(Remote([RemoteHosts.New("localhost", 1234, 1)]), None)
      == Command("6991", ["cargo", "run", "--", "--remote", "localhost:1234/1"])
  {
    var h := RemoteHosts.New("localhost", 1234, 1);
    FormatSample();
    assert Format(1) == "1";
    assert RemoteHosts.ToString(h) == "localhost:1234/1";
    assert [h][1..] == [];
    assert RemoteArgs([h]) == ["--remote", "localhost:1234/1"];
  }
}

=== FILE: remote_host.dfy ===
/** A remote worker declaration `host:port/threads`: its record, the
    parser that reads it from text and the formatter that writes it. */
module RemoteHosts {
  import opened Results
  import opened Decimal

  /** The library record for a remote machine: its address and port. */
  datatype Remote = Remote(addr: string, port: U16)

  /** A remote machine together with the number of worker threads it runs. */
  datatype RemoteHost = RemoteHost(remote: Remote, threads: U32)

  /** `RemoteHost::new`: the host name is stored as the address. */
  function New(host: string, port: U16, threads: U32): RemoteHost {
    RemoteHost(Remote(host, port), threads)
  }

  /** The characters the declaration is split on. */
  predicate IsSeparator(c: char) {
    c == ':' || c == '/'
  }

  predicate NoSeparator(s: string) {
    forall i | 0 <= i < |s| :: !IsSeparator(s[i])
  }

  function SeparatorCount(s: string): nat {
    if s == [] then 0 else (if IsSeparator(s[0]) then 1 else 0) + SeparatorCount(s[1..])
  }

  /** `str::split([':', '/'])`: the pieces between separators, in order,
      one more piece than there are separators, possibly empty. */
  function Split(s: string): (pieces: seq<string>)
    ensures |pieces| == SeparatorCount(s) + 1
  {
    if s == [] then [[]]
    else
      var rest := Split(s[1..]);
      if IsSeparator(s[0]) then [[]] + rest
      else [[s[0]] + rest[0]] + rest[1..]
  }

  /** No piece contains a separator. */
  lemma {:induction false} SplitPiecesHaveNoSeparator(s: string)
    ensures forall k | 0 <= k < |Split(s)| :: NoSeparator(Split(s)[k])
  {
    if s != [] {
      SplitPiecesHaveNoSeparator(s[1..]);
    }
  }

  /** A separator-free string is a single piece. */
  lemma {:induction false} SplitWhole(a: string)
    requires NoSeparator(a)
    ensures Split(a) == [a]
  {
    if a != [] {
      SplitWhole(a[1..]);
      assert [a[0]] + a[1..] == a;
    }
  }

  /** Splitting stops at the first separator: what precedes it is the first
      piece and the rest is split on its own. */
  lemma {:induction false} SplitAtFirst(a: string, c: char, b: string)
    requires NoSeparator(a) && IsSeparator(c)
    ensures Split(a + [c] + b) == [a] + Split(b)
  {
    if a == [] {
      assert a + [c] + b == [c] + b;
      assert ([c] + b)[1..] == b;
    } else {
      SplitAtFirst(a[1..], c, b);
      assert (a + [c] + b)[1..] == a[1..] + [c] + b;
      assert [a[0]] + a[1..] == a;
    }
  }

  /** `RemoteHost::from_str`. The first piece (the host name) is read and
      dropped; the second is parsed as a `u16` port and the third as a `u32`
      thread count, any later pieces are never looked at, and the address
      stored is the whole input. A missing piece panics; a parse error is
      returned, and the port is parsed before the third piece is fetched. */
  function FromStr(s: string): (r: Outcome<Result<RemoteHost, ParseIntError>>)
    ensures r.Panicked? <==>
      |Split(s)| == 1 || (|Split(s)| == 2 && IsUnsignedLiteral(Split(s)[1], U16_LIMIT))
    ensures (r.Returned? && r.value.Ok?) <==>
      |Split(s)| >= 3 && IsUnsignedLiteral(Split(s)[1], U16_LIMIT) && IsUnsignedLiteral(Split(s)[2], U32_LIMIT)
    ensures r.Returned? && r.value.Ok? ==>
      r.value.value.remote.addr == s &&
      r.value.value.remote.port == Value(UnsignedDigits(Split(s)[1])) &&
      r.value.value.threads == Value(UnsignedDigits(Split(s)[2]))
    ensures |Split(s)| >= 2 && !IsUnsignedLiteral(Split(s)[1], U16_LIMIT) ==>
      r == Returned(Err(ParseUnsigned(Split(s)[1], U16_LIMIT).error))
    ensures |Split(s)| >= 3 && IsUnsignedLiteral(Split(s)[1], U16_LIMIT) && !IsUnsignedLiteral(Split(s)[2], U32_LIMIT) ==>
      r == Returned(Err(ParseUnsigned(Split(s)[2], U32_LIMIT).error))
  {
    var pieces := Split(s);
    if |pieces| < 2 then Panicked("Missing port")
    else
      match ParseUnsigned(pieces[1], U16_LIMIT)
      case Err(e) => Returned(Err(e))
      case Ok(port) =>
        if |pieces| < 3 then Panicked("Missing number of threads")
        else
          match ParseUnsigned(pieces[2], U32_LIMIT)
          case Err(e) => Returned(Err(e))
          case Ok(threads) => Returned(Ok(RemoteHost(Remote(s, port), threads)))
  }

  /** `RemoteHost::to_string`: the address, `:`, the port, `/`, the thread count. */
  function ToString(h: RemoteHost): string {
    h.remote.addr + ":" + Format(h.remote.port) + "/" + Format(h.threads)
  }

  /** The printed text, for every host: the address, then `:` right after
      it, then the decimal port, then `/`, then the decimal thread count,
      and nothing else. */
  lemma ToStringLayout(h: RemoteHost)
    ensures var a, p, t := h.remote.addr, Format(h.remote.port), Format(h.threads);
      var r := ToString(h);
      |r| == |a| + |p| + |t| + 2 &&
      r[..|a|] == a && r[|a|] == ':' &&
      r[|a| + 1..|a| + 1 + |p|] == p && r[|a| + 1 + |p|] == '/' &&
      r[|a| + 2 + |p|..] == t
  {
  }

  /** When the address holds no separator, the printed text splits back
      into exactly the address, the port and the thread count. */
  lemma ToStringSplits(h: RemoteHost)
    requires NoSeparator(h.remote.addr)
    ensures Split(ToString(h)) == [h.remote.addr, Format(h.remote.port), Format(h.threads)]
  {
    var port := Format(h.remote.port);
    var threads := Format(h.threads);
    assert NoSeparator(port) && NoSeparator(threads);
    SplitAtFirst(port, '/', threads);
    SplitWhole(threads);
    SplitAtFirst(h.remote.addr, ':', port + "/" + threads);
    assert ToString(h) == h.remote.addr + [':'] + (port + ['/'] + threads);
  }

  /** Printing a host and parsing the text back recovers its port and thread
      count, provided the address holds no `:` or `/`; the address recovered
      is the whole printed text, not the original host name. */
  lemma ToStringThenFromStr(h: RemoteHost)
    requires NoSeparator(h.remote.addr)
    ensures FromStr(ToString(h)) == Returned(Ok(RemoteHost(Remote(ToString(h), h.remote.port), h.threads)))
  {
    ToStringSplits(h);
    FormatThenParse(h.remote.port, U16_LIMIT);
    FormatThenParse(h.threads, U32_LIMIT);
  }

  /** The address a parsed declaration carries is never the host name alone:
      a successful parse stores a text holding at least two separators. */
  lemma ParsedAddrIsWholeText(s: string)
    requires FromStr(s).Returned? && FromStr(s).value.Ok?
    ensures SeparatorCount(FromStr(s).value.value.remote.addr) >= 2
    ensures FromStr(s).value.value.remote.addr != Split(s)[0]
  {
  }

  /** Pieces after the third are never read: two declarations whose port
      and thread-count pieces agree parse alike, except for the address,
      and fail with the same error. */
  lemma TrailingPiecesIgnored(s: string, t: string)
    requires |Split(s)| >= 3 && |Split(t)| >= 3
    requires Split(s)[1] == Split(t)[1] && Split(s)[2] == Split(t)[2]
    ensures FromStr(s).Returned? && FromStr(t).Returned?
    ensures FromStr(s).value.Ok? <==> FromStr(t).value.Ok?
    ensures FromStr(s).value.Ok? ==>
      FromStr(s).value.value.remote.port == FromStr(t).value.value.remote.port &&
      FromStr(s).value.value.threads == FromStr(t).value.value.threads
    ensures FromStr(s).value.Err? ==> FromStr(s) == FromStr(t)
  {
  }

  /** An empty port piece is reported as the port's `Empty` error, even
      though a thread-count piece follows. */
  lemma EmptyPortIsReported()
    ensures FromStr("h::1") == Returned(Err(Empty))
  {
    SplitWhole("1");
    SplitAtFirst("", ':', "1");
    SplitAtFirst("h", ':', ":1");
    assert "h::1" == "h" + [':'] + ":1";
    assert ":1" == [] + [':'] + "1";
  }

  /** A host built with `RemoteHost::new` does not survive the round trip:
      its name is replaced by the whole declaration. */
  lemma NewDoesNotRoundTrip(host: string, port: U16, threads: U32)
    ensures FromStr(ToString(New(host, port, threads))) != Returned(Ok(New(host, port, threads)))
  {
  }

  /** A host name that itself contains `:` shifts the pieces: printing
      `a:b` on port 1234 with one thread and parsing the text back reads
      `b` as the port and fails. */
  lemma SeparatorInHostBreaksRoundTrip()
    ensures FromStr(ToString(New("a:b", 1234, 1))) == Returned(Err(InvalidDigit))
  {
    var text := ToString(New("a:b", 1234, 1));
    SplitOfSample(text);
    assert ParseUnsigned("b", U16_LIMIT) == Err(InvalidDigit) by {
      assert ScanDigits("b", 0, 0, U16_LIMIT) == Err(InvalidDigit);
    }
  }

  /** The pieces of the `a:b` sample declaration. */
  lemma SplitOfSample(text: string)
    requires text == ToString(New("a:b", 1234, 1))
    ensures Split(text) == ["a", "b", "1234", "1"]
  {
    var port := "b" + [':'] + ("1234" + ['/'] + "1");
    SampleText(text);
    SplitOfSampleTail();
    SplitAtFirst("a", ':', port);
  }

  /** The pieces of the sample after its first separator. */
  lemma SplitOfSampleTail()
    ensures Split("b" + [':'] + ("1234" + ['/'] + "1")) == ["b", "1234", "1"]
  {
    var threads := "1234" + ['/'] + "1";
    SplitWhole("1");
    SplitAtFirst("1234", '/', "1");
    SplitAtFirst("b", ':', threads);
  }

  /** The printed text of the sample declaration. */
  lemma SampleText(text: string)
    requires text == ToString(New("a:b", 1234, 1))
    ensures text == "a" + [':'] + ("b" + [':'] + ("1234" + ['/'] + "1"))
  {
    FormatSample();
    assert Format(1) == "1";
  }
}

=== FILE: results.dfy ===
/** Failure-carrying datatypes shared by the model: Rust's `Option` and
    `Result`, and the outcome of a call that may panic through `expect`. */
module Results {

  /** Rust's `Option<T>`. */
  datatype Option<+T> = None | Some(value: T)

  /** Rust's `Result<T, E>`: the value, or the error the operation reports. */
  datatype Result<+T, +E> = Ok(value: T) | Err(error: E)

  /** A call that either returns normally or aborts the thread with a panic
      (an `expect` on a missing value); the message is the `expect` text. */
  datatype Outcome<+T> = Returned(value: T) | Panicked(message: string)
}

=== FILE: termination.dfy ===
/** The `--halt` policy of the dispatcher and its text form. */
module Termination {
  import opened Results

  /** When the dispatcher stops after a failing command. */
  datatype TerminationType = Never | Lazy | Eager

  /** `std::fmt::Error`: a unit error carrying no information. */
  datatype FmtError = FmtError

  /** `TerminationType::from_str`: exactly the three lower-case policy names
      are accepted, each naming the policy of the same name. */
  function FromStr(s: string): (r: Result<TerminationType, FmtError>)
    ensures r.Ok? <==> s == "never" || s == "lazy" || s == "eager"
    ensures r == Ok(Never) <==> s == "never"
    ensures r == Ok(Lazy) <==> s == "lazy"
    ensures r == Ok(Eager) <==> s == "eager"
  {
    match s
    case "never" => Ok(Never)
    case "lazy" => Ok(Lazy)
    case "eager" => Ok(Eager)
    case _ => Err(FmtError)
  }

  /** The `Debug` text of a policy, which is what `--halt` receives; parsing
      it gives the policy back. */
  function Name(t: TerminationType): (r: string)
    ensures FromStr(r) == Ok(t)
  {
    match t
    case Never => "never"
    case Lazy => "lazy"
    case Eager => "eager"
  }

  /** Distinct policies print distinctly. */
  lemma NameInjective(t: TerminationType, u: TerminationType)
    ensures Name(t) == Name(u) ==> t == u
  {
    if Name(t) == Name(u) {
      assert FromStr(Name(t)) == FromStr(Name(u));
    }
  }

  /** Parsing inverts printing from the other side too: every accepted string
      is the printed name of the policy it yields, so the accepted strings
      are exactly the three names. */
  lemma FromStrInvertsName(s: string)
    ensures FromStr(s).Ok? ==> Name(FromStr(s).value) == s
    ensures FromStr(s).Ok? <==> exists t :: Name(t) == s
  {
    if FromStr(s).Ok? {
      var t := FromStr(s).value;
      assert Name(t) == s;
    }
  }
}
